=== FILE: README.md ===
# Smart Traffic Vision: traffic metric engine

A Dafny model of the metric engine of the SmartTrafficVision dashboard
(`app.py`). The engine takes the COCO class ids that a YOLO pass over one
CCTV frame returns and turns them into these dashboard payloads:

- the vehicle counts (`mobil`, `motor`, `bus`, `truk`);
- the summary card (vehicle total, congestion density, estimated speed,
  active cameras);
- the distribution chart;
- the two simulated trend series;
- the response of the visual analysis endpoint.

The camera registry and the upload filename check are also modelled.

The outside world is passed in as inputs:

- `Detection.Pass` is the outcome of grabbing a frame and running the
  detector: unavailable, or a list of results, each a list of box class ids,
  plus the position of a box whose class could not be read, if there is one.
- `Detection.Render` is the outcome of drawing and encoding the annotated
  frame.
- The values `random.randint` would return are given as a sequence of
  integers in the drawn range.

Modules, leaves first:

- `Wrappers`: `Option`.
- `Numerals`: Python's `str(n)` and `int(s)` (white space, sign, `_` digit
  separators, and CPython's cap of 4300 digits).
- `Vehicles`: the class-id → category table, the count record, the tally of
  a pass and the nested counting loop.
- `Estimator`: density `min(100, int(total/40*100))` and speed
  `int(max(5, 80 - density*0.7))`, written with exact integers.
- `Registry`: the five cameras and the first-match lookup by id.
- `Detection`: `get_real_vehicle_count` and `get_annotated_frame`.
- `Upload`: `allowed_file`.
- `Dashboard`: `logic_get_summary`, `logic_get_vehicle`,
  `logic_get_traffic`, `api_public_analytics_data` and `api_analyze_cctv`.

Behaviour of the code worth noting:

- Density and speed are truncated by `int()`, not rounded.
- An id that does not parse or is not registered gives the summary
  `{"0","0%","-","5"}`, not the all-dash card.
- Each trend value is an independent `randint` draw in [20,80] (or [20,90]
  for the public analytics series).
- The trend endpoints never look the id up, so an unregistered id still
  gets random values.
- The `max(5, …)` speed floor never binds: density is at most 100, so the
  speed is at least 10.

The exact integer formulas assume that Python's float evaluation of
`total/40*100` and `80 - density*0.7` truncates to the same integers. For
totals below 40 and densities from 0 to 100, any float rounding error is
small enough that the result truncates to the same integer as the exact
value. From 40 vehicles on, the float is at least 100 and the cap gives 100,
up to totals of about 7.2·10^307. Above that, the product overflows to
infinity, `int()` raises OverflowError, and `logic_get_summary` falls back to
`{"0","0%","-","5"}`. The model does not follow that fallback; see
"## Left out".

## Model

| member | source | states |
|---|---|---|
| Numerals.NatToString | app.py:204-205 | `str(n)` of a count is a non-empty run of decimal digits with no leading zero |
| Numerals.NatToStringValue | app.py:204 | the digits `str(n)` prints denote `n` |
| Numerals.ParseDigits | app.py:184 | `int()` of a plain digit run is the number it denotes, leading zeros included, when the run has at most 4300 digits; a longer run raises whatever its value |
| Numerals.ParseNatToString | app.py:184 | `int(str(n)) == n` for every `n` whose printed form is within the 4300-digit cap |
| Numerals.ParseIntAccepts | app.py:184 | `int(" +0_3 ") == 3`: blanks, a sign, leading zeros and a single `_` separator are accepted |
| Numerals.ParseIntRejects | app.py:184 | `"3__4"`, `"1.0"` and `"-"` raise instead of parsing |
| Vehicles.Classify | app.py:32-33 | exactly the ids 2, 3, 5, 7 map to a category, each to the one whose class id it is; every other id is dropped |
| Vehicles.Bump | app.py:90-93 | one detection raises its own category's count by one and leaves the other three unchanged |
| Vehicles.TallyCountsOccurrences | app.py:78-93 | starting from all zeros, each category's count equals the number of times its class id occurs in the pass |
| Vehicles.TallyTotal | app.py:191 | the total of the counts equals the number of ids in the pass that are in {2,3,5,7} |
| Vehicles.TallyPrefixBounded | app.py:96-98 | counts cut short by a failure never exceed those of the whole pass, per category or in total |
| Vehicles.CountBox | app.py:89-93 | one pass of the `if`/`elif` chain has the effect of recording that box's class id |
| Vehicles.CountResult | app.py:88-93 | the inner loop extends the counts of the boxes seen so far by exactly the boxes of one result |
| Vehicles.CountBoxes | app.py:87-93 | the nested result/box loop computes the tally of the pass in visiting order, i.e. the per-class occurrence counts |
| Estimator.Density | app.py:193-194 | density is in [0,100], is 100 from 40 vehicles on, and below that is the truncated percentage `floor(100·total/40)` |
| Estimator.DensityMonotone | app.py:194 | density never decreases as the total grows |
| Estimator.SpeedForDensity | app.py:200-201 | the speed is `80 - 0.7·density` truncated, lies in [10,80], so the floor of 5 never applies |
| Estimator.SpeedAntitone | app.py:200 | speed never increases as density grows |
| Estimator.EstimateSpeed | app.py:197-201 | the free-flow sentinel is returned exactly when the total is 0; otherwise the speed is the density-derived km/h in [10,80] |
| Estimator.EstimateSpeedAntitone | app.py:191-201 | among non-empty frames, more vehicles never give a higher speed |
| Estimator.SpeedText | app.py:198-201 | the text is `"Lancar"` exactly for the sentinel, otherwise `"<n> km/j"`, and never `"-"` |
| Estimator.EstimatorExamples | app.py:191-201 | 4 vehicles give 10% and 73 km/h; 1 gives 2% and 3 give 7% (truncation); every total of 40 or more gives 100% and 10 km/h; 0 gives free flow |
| Registry.CctvList | app.py:143-176 | the registry holds five cameras with ids 1 to 5 in order |
| Registry.FirstIndex | app.py:185 | the position found holds the id and no earlier entry does; none is found only when no entry has the id |
| Registry.Find | app.py:185 | lookup succeeds exactly when some entry has the id, and returns the first such entry |
| Registry.LookupKnownIds | app.py:145-176 | exactly the ids 1 to 5 resolve, id `k` to the `k`-th entry |
| Detection.Visited | app.py:87-98 | the boxes counted before a failure are a prefix of the pass, and all of it when nothing fails |
| Detection.RealVehicleCount | app.py:73-98 | an unavailable pass gives all zeros; otherwise each category's count is the number of its class id among the boxes visited before any failure, which is all of them on a complete pass and never more than the whole pass |
| Detection.AnnotatedFrame | app.py:100-137 | a failure before drawing (no feed, no result, or plotting raised) gives zero counts and no image; once drawing succeeded the counts are the numeric path's for the same pass (the partial ones if counting failed) and the image is the encoded one only when every box was counted; no image comes back from an incomplete pass |
| Detection.AnnotatedCountsAgree | app.py:114-133 | the annotated path never reports more of a category than the numeric path, and reports the same counts whenever drawing succeeded |
| Upload.Lower | app.py:36 | lower-casing keeps the length, lower-cases each character in place, and leaves no ASCII capital |
| Upload.LowerCase | app.py:36 | each capital becomes the small letter at the same place in the alphabet, and every other character, the dot included, is kept |
| Upload.LowerIdempotent | app.py:36 | lower-casing an already lower-cased name changes nothing |
| Upload.LastDotOfLower | app.py:36 | lower-casing moves no dot: the last dot of the lower-cased name is where it was |
| Upload.LastIndexOf | app.py:36 | the index found holds the character and no later position does; none is found only if the character is absent |
| Upload.Extension | app.py:36 | `rsplit('.', 1)[1]` exists exactly when the name has a dot, and is the dot-free text after the last dot |
| Upload.AllowedFile | app.py:35-36 | accepted exactly when some dot has no dot after it and the lower-cased text after it is png, jpg, jpeg or gif |
| Upload.AllowedFileByExtension | app.py:35-36 | the check is `rsplit('.', 1)[1].lower() in ALLOWED_EXTENSIONS` guarded by `'.' in filename`: accepted exactly when the name has an extension and its lower-cased form is allowed |
| Upload.AllowedFileAccepts | app.py:35-36 | `"a.PNG"` and `"x.tar.gif"` are accepted |
| Upload.AllowedFileIgnoresCase | app.py:35-36 | the check is case-insensitive: a name is accepted exactly when its lower-cased form is |
| Upload.AllowedFileRejects | app.py:35-36 | `"png"`, `"a."` and `"a.gif.txt"` are rejected |
| Dashboard.ResolveNamesCamera | app.py:184-187 | an id resolves to a camera exactly when `int()` reads it as a number from 1 to 5 |
| Dashboard.SingleDigitIds | app.py:184-185 | the ids "1" to "5" name registered cameras |
| Dashboard.LogicGetSummary | app.py:178-212 | no id gives four dashes; an unparseable or unknown id gives `{"0","0%","-","5"}`; a registered camera gives `str(total)` of the pass (which `int()` reads back as the total when it has at most 4300 digits), its density with `%`, its speed text and "5"; the speed is `"-"` exactly without a resolved camera and `"Lancar"` exactly for a resolved camera with an empty pass |
| Dashboard.SummaryOfCamera | app.py:187-208 | for a registered camera the card depends only on the counts of the pass |
| Dashboard.SummaryExample | app.py:189-208 | on a registered camera, a pass counting three cars and a bus gives `{"4","10%","73 km/j","5"}` |
| Dashboard.SummaryEmptyPassIsFreeFlow | app.py:197-198 | a registered camera whose pass counts nothing shows `{"0","0%","Lancar","5"}` |
| Dashboard.SummaryUnknownIdHasNoSpeed | app.py:209-212 | id "6" parses but is not registered and gives the fallback card |
| Dashboard.SummaryBadIdHasNoSpeed | app.py:183-212 | id "x" does not parse and gives the fallback card |
| Dashboard.LogicGetVehicle | app.py:214-234 | the labels are always Mobil, Motor, Bus, Truk with four data; the data are zero unless the id names a camera, and then are the pass's counts in label order; the data sum to the vehicle total |
| Dashboard.SummaryMatchesDistribution | app.py:189-229 | for any non-empty id, the summary's vehicle figure is the printed sum of the distribution data for the same pass |
| Dashboard.LogicGetTraffic | app.py:236-248 | weekly gives 7 buckets, monthly 4, any other period 7; there is one value per label; the values are all zero without an id, and otherwise are the first randint draws, each in [20,80] |
| Dashboard.TrafficIgnoresRegistry | app.py:242-246 | any two non-empty ids, registered or not, get the same series |
| Dashboard.ApiPublicAnalyticsData | app.py:314-337 | same shape rule, with the period defaulting to 'harian' and values in [20,90] |
| Dashboard.AnalyticsLabelsAbbreviateTraffic | app.py:316-324 | the public series has the same number of buckets as the admin one, and each of its labels is a prefix of the admin label |
| Dashboard.ApiAnalyzeCctv | app.py:255-279 | status 400 exactly without an id, 500 exactly when `int()` fails, 404 exactly for a parsed id outside 1..5, 200 otherwise; `total` is the sum of the counts; the counts never exceed the numeric path's and equal them whenever an image is returned |
| Dashboard.AnalyzeOfCamera | app.py:264-274 | for a registered camera the response carries the annotated pass's counts, their sum and its image |
| Dashboard.AnalyzeEncodeFailure | app.py:128-137 | when encoding fails the endpoint still answers 200, with the numeric path's counts and no image |
| Dashboard.OverlongIdRaises | app.py:255-279 | an id of more than 4300 digits, such as `"0" * 4300 + "1"`, makes `int()` raise: the summary and the distribution fall back to zeros and the analysis endpoint answers 500 |

## Left out

- Flask routing, the login decorators, `jsonify`, flash messages and redirects are web plumbing. Only the payload or status each handler computes is modelled.
- The MySQL connection, the article pages and the `kelola_artikel` pagination are database I/O.
- Saving uploaded files is filesystem I/O. Only `allowed_file` is modelled.
- The YOLO model, `cap_from_youtube`, `cv2.imencode` and `base64` are foreign calls. They become the `Pass` and `Render` inputs, and the image is opaque text.
- `random.randint` becomes a sequence of draws assumed to lie in its range. The distribution of the draws is not modelled.
- The float arithmetic becomes exact integer arithmetic, under the assumption stated above.
- The registry's latitude and longitude are floats and are not modelled.
- `print` logging and the loading of the model at start-up are side effects.
- Numerals.ParseInt: Python's `int()` also accepts non-ASCII decimal digits (Arabic-Indic, Devanagari and others). The model accepts only `0`-`9`, so such an id counts as unparseable here.
- Numerals.ParseInt: the digit cap is CPython's default of 4300. A cap changed through `PYTHONINTMAXSTRDIGITS` or `sys.set_int_max_str_digits` is not modelled.
- Numerals.NatToString: CPython's `str()` also raises for an integer of more than 4300 digits. The model prints any count, since one frame cannot hold that many detections; the round trip in `ParseNatToString` and `LogicGetSummary` is stated only within the cap.
- Dashboard.ApiAnalyzeCctv: the 500 body carries `str(e)` of the ValueError. Its text (a Python `repr` of the argument) is not modelled; only the status is.
- Estimator.Density: from totals of about 7.2·10^307, `int((total / 40) * 100)` raises OverflowError because the float product is infinite. The model gives 100 there. No frame holds that many detections.
- Dashboard.LogicGetSummary: for totals of about 7.2·10^307 and more, the source catches that OverflowError and returns `{"0","0%","-","5"}`. The model gives the live card for every total.
- Dashboard.SummaryMatchesDistribution: for totals of about 7.2·10^307 and more, the source's summary shows "0" while the distribution still carries the counts. The lemma's equality holds in the source only below that bound.
- Upload.Lower: only ASCII letters are lower-cased. For this membership test that gives the same answer as `str.lower()`: U+0130 and U+212A are the only non-ASCII characters whose lower case contains an ASCII letter, and neither can complete an allowed extension.

=== FILE: dashboard.dfy ===
/** The request-level logic behind the dashboard's JSON endpoints, shared by
    the admin and public routes: the summary card, the vehicle distribution,
    the two trend series and the visual analysis endpoint. Each handler is a
    function of its request arguments plus the outcome of whatever it would
    ask of the outside world: a detection pass for the camera, a rendering
    outcome, or the numbers `random.randint` would draw. */
module Dashboard {
  import opened Wrappers
  import opened Numerals
  import opened Vehicles
  import opened Estimator
  import opened Registry
  import opened Detection

  /** A query-string argument as `request.args.get` returns it; Python
      treats both a missing argument and the empty string as false. */
  predicate Falsy(arg: Option<string>) {
    arg.None? || arg.value == ""
  }

  /** `int(cctv_id)` followed by the registry lookup. */
  function Resolve(arg: string): Option<Camera> {
    match ParseInt(arg)
    case None => None
    case Some(id) => Lookup(id)
  }

  /** The argument parses as an integer between 1 and 5. */
  predicate NamesCamera(arg: string) {
    ParseInt(arg).Some? && 1 <= ParseInt(arg).value <= 5
  }

  /** An argument resolves to a registry entry exactly when it names one of
      the ids 1 to 5, in any spelling `int()` accepts. */
  lemma ResolveNamesCamera(arg: string)
    ensures Resolve(arg).Some? <==> NamesCamera(arg)
  {
    if ParseInt(arg).Some? {
      LookupKnownIds(ParseInt(arg).value);
    }
  }

  // ----- Summary card -----

  /** The four display strings of the summary card, named after its JSON
      keys (`kendaraan_hari_ini`, `kepadatan_tertinggi`,
      `rata_rata_kecepatan`, `kamera_aktif`). */
  datatype Summary = Summary(kendaraanHariIni: string, kepadatanTertinggi: string,
                             rataRataKecepatan: string, kameraAktif: string)

  /** A percentage as the card prints it, `f"{n}%"`. */
  function Percent(n: nat): string {
    NatToString(n) + "%"
  }

  /** The card derived from one detection pass over a resolved camera. */
  function LiveSummary(counts: Counts): Summary {
    var total := counts.Total();
    Summary(NatToString(total), Percent(Density(total)), SpeedText(EstimateSpeed(total)), "5")
  }

  /** `logic_get_summary`: all dashes without an id; zero counts and no
      speed for an id that does not parse or is not registered; otherwise
      the total, the density and the speed of one detection pass. */
  function LogicGetSummary(cctvId: Option<string>, pass: Pass): (r: Summary)
    ensures Falsy(cctvId) ==> r == Summary("-", "-", "-", "-")
    ensures !Falsy(cctvId) && !NamesCamera(cctvId.value) ==> r == Summary("0", "0%", "-", "5")
    ensures !Falsy(cctvId) && NamesCamera(cctvId.value) ==>
              var total := RealVehicleCount(pass).Total();
              && r.kendaraanHariIni == NatToString(total)
              && (|r.kendaraanHariIni| <= MaxStrDigits ==> ParseInt(r.kendaraanHariIni) == Some(total))
              && r.kepadatanTertinggi == Percent(Density(total))
              && r.rataRataKecepatan == SpeedText(EstimateSpeed(total))
              && r.kameraAktif == "5"
    ensures r.kameraAktif == "-" <==> Falsy(cctvId)
    ensures r.rataRataKecepatan == "-" <==> Falsy(cctvId) || !NamesCamera(cctvId.value)
    ensures r.rataRataKecepatan == "Lancar" <==>
              !Falsy(cctvId) && NamesCamera(cctvId.value) && RealVehicleCount(pass).Total() == 0
  {
    if Falsy(cctvId) then Summary("-", "-", "-", "-")
    else
      ResolveNamesCamera(cctvId.value);
      ParseNatToString(RealVehicleCount(pass).Total());
      match Resolve(cctvId.value)
      case Some(camera) => LiveSummary(RealVehicleCount(pass))
      case None => Summary("0", "0%", "-", "5")
  }

  /** The ids "1" to "5" name the registered cameras. */
  lemma SingleDigitIds(n: nat)
    requires 1 <= n <= 5
    ensures NatToString(n) == [DigitChar(n)]
    ensures NamesCamera([DigitChar(n)])
  {
    ParseNatToString(n);
  }

  /** The card for a registered camera depends only on the pass's counts. */
  lemma SummaryOfCamera(cctvId: string, pass: Pass)
    requires NamesCamera(cctvId)
    ensures LogicGetSummary(Some(cctvId), pass) == LiveSummary(RealVehicleCount(pass))
  {
    ResolveNamesCamera(cctvId);
    assert cctvId != "";
    assert !Falsy(Some(cctvId));
  }

  /** The printed fields of a live card whose total is 0. */
  lemma TextOfZero()
    ensures NatToString(0) == "0" && Percent(Density(0)) == "0%" && SpeedText(EstimateSpeed(0)) == "Lancar"
  {
  }

  /** The printed fields of a live card whose total is 4. */
  lemma TextOfFour()
    ensures NatToString(4) == "4" && Percent(Density(4)) == "10%" && SpeedText(EstimateSpeed(4)) == "73 km/j"
  {
  }

  /** The worked example: on any registered camera, a pass that saw three
      cars and a bus gives 4 vehicles, 10% density and 73 km/h. */
  lemma SummaryExample(cctvId: string, pass: Pass)
    requires NamesCamera(cctvId) && RealVehicleCount(pass) == Counts(3, 0, 1, 0)
    ensures LogicGetSummary(Some(cctvId), pass) == Summary("4", "10%", "73 km/j", "5")
  {
    SummaryOfCamera(cctvId, pass);
    TextOfFour();
  }

  /** A registered camera whose pass saw nothing reports free flow ... */
  lemma SummaryEmptyPassIsFreeFlow(cctvId: string, pass: Pass)
    requires NamesCamera(cctvId) && RealVehicleCount(pass).Total() == 0
    ensures LogicGetSummary(Some(cctvId), pass) == Summary("0", "0%", "Lancar", "5")
  {
    SummaryOfCamera(cctvId, pass);
    TextOfZero();
  }

  /** ... unlike an id outside the registry, which reports no speed. */
  lemma SummaryUnknownIdHasNoSpeed(pass: Pass)
    ensures LogicGetSummary(Some("6"), pass) == Summary("0", "0%", "-", "5")
  {
    ParseNatToString(6);
    assert NatToString(6) == "6";
  }

  /** ... and so does an id `int()` rejects. */
  lemma SummaryBadIdHasNoSpeed(pass: Pass)
    ensures LogicGetSummary(Some("x"), pass) == Summary("0", "0%", "-", "5")
  {
    StripUnpadded("x");
    assert !WellGrouped("x");
    assert ParseInt("x") == None;
  }

  // ----- Vehicle distribution -----

  /** The chart payload of the distribution endpoint (`labels`, `data`). */
  datatype Distribution = Distribution(labels: seq<string>, data: seq<nat>)

  const VehicleLabels: seq<string> := ["Mobil", "Motor", "Bus", "Truk"]

  function Sum(xs: seq<nat>): nat {
    if |xs| == 0 then 0 else Sum(xs[..|xs| - 1]) + xs[|xs| - 1]
  }

  lemma SumOfFour(a: nat, b: nat, c: nat, d: nat)
    ensures Sum([a, b, c, d]) == a + b + c + d
  {
    assert [a][..0] == [] && [a, b][..1] == [a] && [a, b, c][..2] == [a, b] && [a, b, c, d][..3] == [a, b, c];
    assert Sum([a]) == a;
    assert Sum([a, b]) == a + b;
    assert Sum([a, b, c]) == a + b + c;
  }

  /** `logic_get_vehicle`: the four fixed labels, with zero data unless the
      id names a registered camera, in which case the data are that pass's
      counts in label order. The period is ignored. */
  function LogicGetVehicle(cctvId: Option<string>, period: Option<string>, pass: Pass): (r: Distribution)
    ensures r.labels == ["Mobil", "Motor", "Bus", "Truk"] && |r.data| == 4
    ensures Falsy(cctvId) || !NamesCamera(cctvId.value) ==> r.data == [0, 0, 0, 0]
    ensures !Falsy(cctvId) && NamesCamera(cctvId.value) ==>
              var c := RealVehicleCount(pass);
              r.data == [c.Get(Car), c.Get(Motorcycle), c.Get(Bus), c.Get(Truck)]
    ensures Sum(r.data) == if !Falsy(cctvId) && NamesCamera(cctvId.value) then RealVehicleCount(pass).Total() else 0
  {
    var zeros: seq<nat> := [0, 0, 0, 0];
    SumOfFour(0, 0, 0, 0);
    if Falsy(cctvId) then Distribution(VehicleLabels, zeros)
    else
      ResolveNamesCamera(cctvId.value);
      match Resolve(cctvId.value)
      case Some(camera) =>
        var c := RealVehicleCount(pass);
        var data: seq<nat> := [c.mobil, c.motor, c.bus, c.truk];
        SumOfFour(c.mobil, c.motor, c.bus, c.truk);
        Distribution(VehicleLabels, data)
      case None => Distribution(VehicleLabels, zeros)
  }

  /** For any id, the summary's vehicle count is the sum of the
      distribution chart for the same pass. */
  lemma SummaryMatchesDistribution(cctvId: Option<string>, period: Option<string>, pass: Pass)
    requires !Falsy(cctvId)
    ensures LogicGetSummary(cctvId, pass).kendaraanHariIni == NatToString(Sum(LogicGetVehicle(cctvId, period, pass).data))
  {
    ResolveNamesCamera(cctvId.value);
    assert NatToString(0) == "0";
  }

  // ----- Trend series -----

  /** The label and value series of the two trend endpoints. */
  datatype Trend = Trend(labels: seq<string>, values: seq<int>)

  const HourLabels: seq<string> := ["06:00", "08:00", "10:00", "12:00", "14:00", "16:00", "18:00"]
  const DayLabels: seq<string> := ["Senin", "Selasa", "Rabu", "Kamis", "Jumat", "Sabtu", "Minggu"]
  const ShortDayLabels: seq<string> := ["Sen", "Sel", "Rab", "Kam", "Jum", "Sab", "Min"]
  const WeekLabels: seq<string> := ["Minggu 1", "Minggu 2", "Minggu 3", "Minggu 4"]

  /** The label table of `logic_get_traffic`: weekly, monthly, and the
      hourly table for any other period, a missing one included. */
  function TrafficLabels(period: Option<string>): seq<string> {
    if period == Some("mingguan") then DayLabels
    else if period == Some("bulanan") then WeekLabels
    else HourLabels
  }

  /** `draws` are what successive `random.randint(lo, hi)` calls return. */
  predicate RandInts(draws: seq<int>, lo: int, hi: int) {
    forall i :: 0 <= i < |draws| ==> lo <= draws[i] <= hi
  }

  /** `logic_get_traffic`: one value per label, all zero without an id and
      otherwise one `randint(20, 80)` draw per label. The id is never looked
      up, so an unregistered id still gets random values. */
  function LogicGetTraffic(cctvId: Option<string>, period: Option<string>, draws: seq<int>): (r: Trend)
    requires |draws| >= |TrafficLabels(period)| && RandInts(draws, 20, 80)
    ensures r.labels == TrafficLabels(period)
    ensures |r.values| == |r.labels| == if period == Some("bulanan") then 4 else 7
    ensures Falsy(cctvId) ==> forall i :: 0 <= i < |r.values| ==> r.values[i] == 0
    ensures !Falsy(cctvId) ==> r.values == draws[..|r.labels|]
    ensures !Falsy(cctvId) ==> forall i :: 0 <= i < |r.values| ==> 20 <= r.values[i] <= 80
  {
    var labels := TrafficLabels(period);
    if Falsy(cctvId) then Trend(labels, seq(|labels|, _ => 0))
    else Trend(labels, draws[..|labels|])
  }

  /** The trend series never consults the registry: every non-empty id,
      registered or not, parseable or not, gets the same series. */
  lemma TrafficIgnoresRegistry(a: string, b: string, period: Option<string>, draws: seq<int>)
    requires a != "" && b != ""
    requires |draws| >= |TrafficLabels(period)| && RandInts(draws, 20, 80)
    ensures LogicGetTraffic(Some(a), period, draws) == LogicGetTraffic(Some(b), period, draws)
  {
  }

  /** The label table of `api_public_analytics_data`, whose period defaults
      to `'harian'` and whose weekdays are abbreviated. */
  function AnalyticsLabels(period: Option<string>): seq<string> {
    var p := period.GetOr("harian");
    if p == "mingguan" then ShortDayLabels
    else if p == "bulanan" then WeekLabels
    else HourLabels
  }

  /** `api_public_analytics_data`: the same shape rule as the trend series,
      with `randint(20, 90)` draws. */
  function ApiPublicAnalyticsData(cctvId: Option<string>, period: Option<string>, draws: seq<int>): (r: Trend)
    requires |draws| >= |AnalyticsLabels(period)| && RandInts(draws, 20, 90)
    ensures r.labels == AnalyticsLabels(period)
    ensures |r.values| == |r.labels| == if period == Some("bulanan") then 4 else 7
    ensures Falsy(cctvId) ==> forall i :: 0 <= i < |r.values| ==> r.values[i] == 0
    ensures !Falsy(cctvId) ==> r.values == draws[..|r.labels|]
    ensures !Falsy(cctvId) ==> forall i :: 0 <= i < |r.values| ==> 20 <= r.values[i] <= 90
  {
    var labels := AnalyticsLabels(period);
    if Falsy(cctvId) then Trend(labels, seq(|labels|, _ => 0))
    else Trend(labels, draws[..|labels|])
  }

  /** The two trend endpoints agree on shape: the same number of buckets
      for every period, each public label a prefix of the admin label
      (only the weekday names are abbreviated). */
  lemma AnalyticsLabelsAbbreviateTraffic(period: Option<string>)
    ensures |AnalyticsLabels(period)| == |TrafficLabels(period)|
    ensures forall i :: 0 <= i < |AnalyticsLabels(period)| ==> AnalyticsLabels(period)[i] <= TrafficLabels(period)[i]
  {
    if period == Some("mingguan") {
      assert forall i :: 0 <= i < 7 ==> ShortDayLabels[i] <= DayLabels[i];
    }
  }

  // ----- Visual analysis -----

  /** The responses of `/api/analyze_cctv`. */
  datatype AnalyzeResponse =
    | Analyzed(counts: Counts, total: nat, image: Option<string>)
    | NoId
    | BadId
    | NotFound

  /** The HTTP status each response is sent with. */
  function StatusCode(r: AnalyzeResponse): nat {
    match r
    case Analyzed(_, _, _) => 200
    case NoId => 400
    case BadId => 500
    case NotFound => 404
  }

  /** `api_analyze_cctv`: 400 without an id, 500 when `int()` rejects it,
      404 when no camera has it, and otherwise 200 with the annotated pass's
      counts, their total and the image. */
  function ApiAnalyzeCctv(cctvId: Option<string>, pass: Pass, render: Render): (r: AnalyzeResponse)
    ensures StatusCode(r) == 400 <==> Falsy(cctvId)
    ensures StatusCode(r) == 500 <==> !Falsy(cctvId) && ParseInt(cctvId.value).None?
    ensures StatusCode(r) == 404 <==> !Falsy(cctvId) && ParseInt(cctvId.value).Some? && !NamesCamera(cctvId.value)
    ensures StatusCode(r) == 200 <==> !Falsy(cctvId) && NamesCamera(cctvId.value)
    ensures r.Analyzed? ==> r.total == r.counts.Total()
    ensures r.Analyzed? ==> forall k :: r.counts.Get(k) <= RealVehicleCount(pass).Get(k)
    ensures r.Analyzed? && r.image.Some? ==> r.counts == RealVehicleCount(pass)
  {
    if Falsy(cctvId) then NoId
    else
      ResolveNamesCamera(cctvId.value);
      match ParseInt(cctvId.value)
      case None => BadId
      case Some(id) =>
        match Lookup(id)
        case None => NotFound
        case Some(camera) =>
          AnnotatedCountsAgree(pass, render);
          var (counts, image) := AnnotatedFrame(pass, render);
          Analyzed(counts, counts.Total(), image)
  }

  /** For a registered camera the response carries the annotated pass. */
  lemma AnalyzeOfCamera(cctvId: string, pass: Pass, render: Render)
    requires NamesCamera(cctvId)
    ensures var (counts, image) := AnnotatedFrame(pass, render);
            ApiAnalyzeCctv(Some(cctvId), pass, render) == Analyzed(counts, counts.Total(), image)
  {
    ResolveNamesCamera(cctvId);
  }

  /** A failed encoding still answers 200, with the same counts as the
      numeric path and no image. */
  lemma AnalyzeEncodeFailure(cctvId: string, pass: Pass)
    requires NamesCamera(cctvId) && pass.Detected? && |pass.results| > 0
    ensures ApiAnalyzeCctv(Some(cctvId), pass, Render(true, None))
            == Analyzed(RealVehicleCount(pass), RealVehicleCount(pass).Total(), None)
  {
    AnalyzeOfCamera(cctvId, pass, Render(true, None));
    AnnotatedCountsAgree(pass, Render(true, None));
  }

  /** An id of more than `MaxStrDigits` digits makes `int()` raise, whatever
      number it denotes (`"0" * 4300 + "1"` included): the summary falls back
      to the zero card, the distribution to zeros, and the analysis endpoint
      answers 500. */
  lemma OverlongIdRaises(cctvId: string, period: Option<string>, pass: Pass, render: Render)
    requires AllDigits(cctvId) && |cctvId| > MaxStrDigits
    ensures LogicGetSummary(Some(cctvId), pass) == Summary("0", "0%", "-", "5")
    ensures LogicGetVehicle(Some(cctvId), period, pass).data == [0, 0, 0, 0]
    ensures StatusCode(ApiAnalyzeCctv(Some(cctvId), pass, render)) == 500
  {
    ParseDigits(cctvId);
  }
}

=== FILE: detection.dfy ===
/** The two detection routines: `get_real_vehicle_count`, which grabs one
    frame of a camera's feed, runs the detector on it and counts the boxes,
    and `get_annotated_frame`, which does the same and also returns the frame
    with the boxes drawn on it. The frame grabber, the detector and the image
    encoder are not modelled; their outcome is an input. */
module Detection {
  import opened Wrappers
  import opened Vehicles

  /** The outcome of grabbing a frame and running the detector on it.
      Unavailable: the feed could not be opened, no frame was read, or the
      detector raised. Detected: the detector returned `results`, one list
      of box class ids per result; `fault` is the position, in visiting
      order, of the box whose class could not be read, if any. */
  datatype Pass =
    | Unavailable
    | Detected(results: seq<seq<int>>, fault: Option<nat>)

  /** The ids the counting loop gets through before a faulty box, if any. */
  function Visited(results: seq<seq<int>>, fault: Option<nat>): (ids: seq<int>)
    ensures ids <= Flatten(results)
    ensures fault.None? ==> ids == Flatten(results)
  {
    var all := Flatten(results);
    if fault.Some? && fault.value < |all| then all[..fault.value] else all
  }

  /** True when the pass read every box's class. */
  predicate Complete(p: Pass) {
    p.Detected? && Visited(p.results, p.fault) == Flatten(p.results)
  }

  /** `get_real_vehicle_count`: the counts of the boxes visited before any
      failure; a failure before counting leaves all four counts at 0. */
  function RealVehicleCount(p: Pass): (c: Counts)
    ensures p.Unavailable? ==> c == Zero
    ensures p.Detected? ==> forall k :: c.Get(k) == multiset(Visited(p.results, p.fault))[ClassId(k)]
    ensures Complete(p) ==> forall k :: c.Get(k) == multiset(Flatten(p.results))[ClassId(k)]
    ensures p.Detected? ==> forall k :: c.Get(k) <= multiset(Flatten(p.results))[ClassId(k)]
  {
    match p
    case Unavailable => Zero
    case Detected(results, fault) =>
      var all := Flatten(results);
      var seen := Visited(results, fault);
      TallyPrefixBounded(all, |seen|);
      assert all[..|seen|] == seen;
      TallyCountsOccurrences(all);
      TallyCountsOccurrences(seen);
      Tally(seen)
  }

  /** The rendering outcome of `get_annotated_frame`: whether drawing the
      boxes on the first result succeeded, and the base64 text of the
      encoded JPEG, or None when encoding raised. */
  datatype Render = Render(plotted: bool, encoded: Option<string>)

  /** `get_annotated_frame`: the counts and the annotated image. Drawing
      happens before counting, so a drawing failure (including a detector
      that returned no result at all) gives all-zero counts; a failure while
      counting or encoding keeps the counts gathered so far and drops the
      image. */
  function AnnotatedFrame(p: Pass, render: Render): (out: (Counts, Option<string>))
    ensures out.1.Some? ==> Complete(p) && out.1 == render.encoded
    ensures out.1.Some? ==> out.0 == RealVehicleCount(p)
    ensures p.Detected? && |p.results| > 0 && render.plotted ==>
              out == (RealVehicleCount(p), if Complete(p) then render.encoded else None)
    ensures !Complete(p) ==> out.1.None?
    ensures !(p.Detected? && |p.results| > 0 && render.plotted) ==> out == (Zero, None)
  {
    match p
    case Unavailable => (Zero, None)
    case Detected(results, fault) =>
      if |results| == 0 || !render.plotted then (Zero, None)
      else
        var counts := Tally(Visited(results, fault));
        if Visited(results, fault) != Flatten(results) then (counts, None)
        else (counts, render.encoded)
  }

  /** The annotated path never reports more of any category than the
      numeric path does for the same pass, and reports exactly as much
      whenever drawing succeeded: the counts come from the boxes that were
      drawn. */
  lemma AnnotatedCountsAgree(p: Pass, render: Render)
    ensures forall k :: AnnotatedFrame(p, render).0.Get(k) <= RealVehicleCount(p).Get(k)
    ensures p.Detected? && |p.results| > 0 && render.plotted ==> AnnotatedFrame(p, render).0 == RealVehicleCount(p)
  {
  }
}

=== FILE: estimator.dfy ===
/** The density and speed estimator of the summary endpoint: a congestion
    percentage from the vehicle total under a capacity of 40 vehicles per
    frame, and a speed that falls linearly from 80 km/h as density rises.
    `logic_get_summary` computes both in floating point and truncates with
    `int()`; here the same values are stated in exact integer arithmetic. */
module Estimator {
  import opened Numerals

  /** Vehicles in one fully saturated frame. */
  const Capacity: nat := 40

  function Min(a: int, b: int): int {
    if a <= b then a else b
  }

  function Max(a: int, b: int): int {
    if a >= b then a else b
  }

  /** `min(100, int((total / 40) * 100))`: the percentage truncated, not
      rounded, and capped at 100. */
  function Density(total: nat): (d: nat)
    ensures d <= 100
    ensures Capacity <= total ==> d == 100
    ensures total < Capacity ==> d * Capacity <= total * 100 < (d + 1) * Capacity
  {
    Min(100, total * 100 / Capacity)
  }

  /** More vehicles never make the road look less dense. */
  lemma DensityMonotone(a: nat, b: nat)
    requires a <= b
    ensures Density(a) <= Density(b)
  {
  }

  /** The speed estimate: the free-flow sentinel `"Lancar"` or a whole
      number of km/h. */
  datatype Speed = Lancar | Kmh(kmh: nat)

  /** `int(max(5, 80 - density * 0.7))`: 80 km/h on an empty road, 7 km/h
      less per 10 points of density, truncated. */
  function SpeedForDensity(d: nat): (n: nat)
    requires d <= 100
    ensures 10 * n <= 800 - 7 * d < 10 * (n + 1)
    ensures 10 <= n <= 80
  {
    Max(5, (800 - 7 * d) / 10)
  }

  /** Denser traffic never gives a higher speed. */
  lemma SpeedAntitone(d1: nat, d2: nat)
    requires d1 <= d2 <= 100
    ensures SpeedForDensity(d2) <= SpeedForDensity(d1)
  {
  }

  /** The speed reported for a frame with `total` vehicles: the sentinel
      exactly when the frame is empty, since nothing can be inferred from it. */
  function EstimateSpeed(total: nat): (s: Speed)
    ensures s.Lancar? <==> total == 0
    ensures s.Kmh? ==> s.kmh == SpeedForDensity(Density(total)) && 10 <= s.kmh <= 80
  {
    if total == 0 then Lancar else Kmh(SpeedForDensity(Density(total)))
  }

  /** Among non-empty frames, more vehicles never give a higher speed. */
  lemma EstimateSpeedAntitone(a: nat, b: nat)
    requires 0 < a <= b
    ensures EstimateSpeed(b).kmh <= EstimateSpeed(a).kmh
  {
    DensityMonotone(a, b);
    SpeedAntitone(Density(a), Density(b));
  }

  /** The speed as the dashboard shows it: `"Lancar"` or `"<n> km/j"`. */
  function SpeedText(s: Speed): (t: string)
    ensures t != "-"
    ensures t == "Lancar" <==> s.Lancar?
    ensures s.Kmh? ==> exists k :: 0 < k < |t| && t[..k] == NatToString(s.kmh) && t[k..] == " km/j"
  {
    match s
    case Lancar => "Lancar"
    case Kmh(n) =>
      var t := NatToString(n) + " km/j";
      assert t[..|NatToString(n)|] == NatToString(n);
      t
  }

  /** The worked example: 4 vehicles give density 10% and 73 km/h; 1 vehicle
      gives 2% (2.5 truncated); a saturated frame, of 40 vehicles or more,
      gives 100% and 10 km/h. */
  lemma EstimatorExamples()
    ensures Density(4) == 10 && EstimateSpeed(4) == Kmh(73)
    ensures Density(1) == 2 && Density(3) == 7 && Density(40) == 100 && Density(1000) == 100
    ensures EstimateSpeed(40) == Kmh(10) && EstimateSpeed(0) == Lancar
    ensures forall t: nat :: Capacity <= t ==> Density(t) == 100 && EstimateSpeed(t) == Kmh(10)
  {
  }
}

=== FILE: numerals.dfy ===
/** Decimal text as Python renders and parses it: `str(n)` for the counts
    and percentages shown on the dashboard, and `int(s)` for the `cctv_id`
    request argument. */
module Numerals {
  import opened Wrappers

  predicate IsDigit(c: char) {
    '0' <= c <= '9'
  }

  predicate AllDigits(s: string) {
    forall i :: 0 <= i < |s| ==> IsDigit(s[i])
  }

  function DigitValue(c: char): nat
    requires IsDigit(c)
  {
    c as int - '0' as int
  }

  function DigitChar(d: nat): (c: char)
    requires d < 10
    ensures IsDigit(c) && DigitValue(c) == d
  {
    ('0' as int + d) as char
  }

  /** The number a string of decimal digits denotes (leading zeros allowed). */
  function DigitsValue(s: string): nat
    requires AllDigits(s)
  {
    if |s| == 0 then 0 else 10 * DigitsValue(s[..|s| - 1]) + DigitValue(s[|s| - 1])
  }

  /** Python's `str(n)` for a non-negative integer. */
  function NatToString(n: nat): (s: string)
    ensures |s| > 0 && AllDigits(s)
    ensures s[0] == '0' ==> s == "0"
  {
    if n < 10 then [DigitChar(n)] else NatToString(n / 10) + [DigitChar(n % 10)]
  }

  /** `str(n)` denotes `n`: reading the digits back gives the number. */
  lemma {:induction false} NatToStringValue(n: nat)
    ensures DigitsValue(NatToString(n)) == n
  {
    var s := NatToString(n);
    if n >= 10 {
      assert s[..|s| - 1] == NatToString(n / 10);
      NatToStringValue(n / 10);
    }
  }

  /** The characters Python's `int()` strips from both ends of its argument.
      The ASCII controls 0x1C-0x1F are not among them, although `isspace()`
      accepts them. */
  predicate IsIntSpace(c: char) {
    || c == '\t' || c == '\n' || c == '\U{B}' || c == '\U{C}' || c == '\r' || c == ' '
    || c == '\U{85}' || c == '\U{A0}' || c == '\U{1680}'
    || ('\U{2000}' <= c <= '\U{200A}')
    || c == '\U{2028}' || c == '\U{2029}' || c == '\U{202F}' || c == '\U{205F}' || c == '\U{3000}'
  }

  function TrimLeft(s: string): (t: string)
    ensures |t| <= |s|
    ensures |t| > 0 ==> !IsIntSpace(t[0])
  {
    if |s| > 0 && IsIntSpace(s[0]) then TrimLeft(s[1..]) else s
  }

  function TrimRight(s: string): (t: string)
    ensures |t| <= |s|
    ensures |t| > 0 ==> !IsIntSpace(t[|t| - 1])
  {
    if |s| > 0 && IsIntSpace(s[|s| - 1]) then TrimRight(s[..|s| - 1]) else s
  }

  function Strip(s: string): string {
    TrimRight(TrimLeft(s))
  }

  /** Digits with single underscores allowed only between two digits, as in
      `"1_000"`; `"_1"`, `"1_"` and `"1__0"` are rejected. */
  predicate WellGrouped(s: string) {
    && |s| > 0
    && IsDigit(s[0])
    && (forall i :: 0 <= i < |s| ==> IsDigit(s[i]) || s[i] == '_')
    && (forall i :: 0 <= i < |s| && s[i] == '_' ==> i + 1 < |s| && IsDigit(s[i + 1]))
  }

  function DropUnderscores(s: string): (t: string)
    requires forall i :: 0 <= i < |s| ==> IsDigit(s[i]) || s[i] == '_'
    ensures AllDigits(t)
  {
    if |s| == 0 then ""
    else if s[0] == '_' then DropUnderscores(s[1..])
    else [s[0]] + DropUnderscores(s[1..])
  }

  function GroupedValue(s: string): nat
    requires WellGrouped(s)
  {
    DigitsValue(DropUnderscores(s))
  }

  /** CPython's default cap on the digits `int()` converts from decimal
      text (`sys.int_info.default_max_str_digits`). Underscores do not
      count towards it; leading zeros do. */
  const MaxStrDigits := 4300

  /** The number of characters other than `_`: the digits of a
      well-grouped string. */
  function DigitCount(s: string): nat {
    if |s| == 0 then 0 else DigitCount(s[1..]) + (if s[0] == '_' then 0 else 1)
  }

  /** Well-grouped digits within the digit cap: what `int()` converts. */
  predicate Convertible(body: string) {
    WellGrouped(body) && DigitCount(body) <= MaxStrDigits
  }

  /** Python's `int(s)` with base 10: surrounding white space is ignored, an
      optional sign may lead, and the rest must be well-grouped digits, at
      most `MaxStrDigits` of them; anything else raises ValueError, modelled
      as None. */
  function ParseInt(s: string): Option<int> {
    var t := Strip(s);
    if |t| > 0 && (t[0] == '+' || t[0] == '-') then
      var body := t[1..];
      if Convertible(body) then
        var v: int := GroupedValue(body);
        Some(if t[0] == '-' then -v else v)
      else None
    else if Convertible(t) then Some(GroupedValue(t))
    else None
  }

  lemma {:induction false} DropUnderscoresOfDigits(s: string)
    requires AllDigits(s)
    ensures DropUnderscores(s) == s
    ensures DigitCount(s) == |s|
  {
    if |s| > 0 {
      DropUnderscoresOfDigits(s[1..]);
    }
  }

  lemma DigitsWellGrouped(s: string)
    requires |s| > 0 && AllDigits(s)
    ensures WellGrouped(s)
  {
  }

  /** An unpadded, unsigned, well-grouped string parses to its value when
      it is within the digit cap, and raises otherwise. */
  lemma ParseUnsigned(s: string)
    requires Strip(s) == s && WellGrouped(s)
    ensures ParseInt(s) == if DigitCount(s) <= MaxStrDigits then Some(GroupedValue(s)) else None
  {
    assert IsDigit(s[0]);
  }

  /** A plain run of decimal digits parses to the number it denotes,
      leading zeros included (`int("007") == 7`), exactly when it holds at
      most `MaxStrDigits` digits; a longer run raises, whatever its value. */
  lemma ParseDigits(s: string)
    requires |s| > 0 && AllDigits(s)
    ensures ParseInt(s) == if |s| <= MaxStrDigits then Some(DigitsValue(s)) else None
  {
    assert IsDigit(s[0]) && IsDigit(s[|s| - 1]);
    StripUnpadded(s);
    DigitsWellGrouped(s);
    ParseUnsigned(s);
    DropUnderscoresOfDigits(s);
  }

  lemma StripUnpadded(s: string)
    requires |s| > 0 && !IsIntSpace(s[0]) && !IsIntSpace(s[|s| - 1])
    ensures Strip(s) == s
  {
    assert TrimLeft(s) == s;
  }

  /** Parsing what `str` printed gives the number back, for every number
      whose printed form is within the digit cap. */
  lemma ParseNatToString(n: nat)
    ensures |NatToString(n)| <= MaxStrDigits ==> ParseInt(NatToString(n)) == Some(n)
  {
    ParseDigits(NatToString(n));
    NatToStringValue(n);
  }

  /** Surrounding blanks, a sign, leading zeros and a separating underscore
      are all accepted: `int(" +0_3 ") == 3`. */
  lemma ParseIntAccepts()
    ensures ParseInt(" +0_3 ") == Some(3)
  {
    assert TrimLeft(" +0_3 ") == "+0_3 ";
    assert TrimRight("+0_3 ") == "+0_3";
    assert WellGrouped("0_3");
    assert DropUnderscores("0_3") == "03";
    assert DigitsValue("03") == 3;
  }

  /** A doubled underscore, a decimal point and a bare sign raise. */
  lemma ParseIntRejects()
    ensures ParseInt("3__4") == None && ParseInt("1.0") == None && ParseInt("-") == None
  {
    StripUnpadded("3__4");
    StripUnpadded("1.0");
    StripUnpadded("-");
    assert "3__4"[1] == '_' && !IsDigit("3__4"[2]);
    assert !WellGrouped("3__4");
    assert "1.0"[1] == '.';
    assert !WellGrouped("1.0");
    assert !WellGrouped("");
  }
}

=== FILE: registry.dfy ===
/** The camera registry: the fixed list of five CCTV feeds and the
    first-match lookup by numeric id that every camera-specific handler uses. */
module Registry {
  import opened Wrappers

  /** One registry entry (the latitude/longitude pair is not modelled). */
  datatype Camera = Camera(id: int, name: string, status: string, streamUrl: string, youtubeLink: string)

  /** The catalogue `fetch_cctv_list` returns, in its order. */
  function CctvList(): (cams: seq<Camera>)
    ensures |cams| == 5
    ensures forall i :: 0 <= i < |cams| ==> cams[i].id == i + 1
  {
    [ Camera(1, "CCTV Pontianak (Simpang Garuda)", "Aktif",
             "https://www.youtube.com/embed/1s9cRcqZf58",
             "https://www.youtube.com/watch?v=1s9cRcqZf58"),
      Camera(2, "CCTV Pontianak (Tugu Khatulistiwa)", "Aktif",
             "https://www.youtube.com/embed/oqSqC-gOALo",
             "https://www.youtube.com/watch?v=oqSqC-gOALo"),
      Camera(3, "CCTV Demak (Alun-Alun)", "Aktif",
             "https://www.youtube.com/embed/mHk5UKckU7M",
             "https://www.youtube.com/watch?v=mHk5UKckU7M"),
      Camera(4, "CCTV Demak (Pasar Bintoro)", "Aktif",
             "https://www.youtube.com/embed/7c4CsGkmBu8",
             "https://www.youtube.com/watch?v=7c4CsGkmBu8"),
      Camera(5, "CCTV Demak (Pertigaan Trengguli)", "Aktif",
             "https://www.youtube.com/embed/5nw3G2jtWaU",
             "https://www.youtube.com/watch?v=5nw3G2jtWaU") ]
  }

  /** The position of the first entry with the given id, if any. */
  function FirstIndex(cams: seq<Camera>, id: int): (r: Option<nat>)
    ensures r.Some? ==> r.value < |cams| && cams[r.value].id == id
    ensures r.Some? ==> forall j :: 0 <= j < r.value ==> cams[j].id != id
    ensures r.None? ==> forall j :: 0 <= j < |cams| ==> cams[j].id != id
  {
    if |cams| == 0 then None
    else if cams[0].id == id then Some(0)
    else match FirstIndex(cams[1..], id)
      case None => None
      case Some(k) => Some(k + 1)
  }

  /** `next((item for item in cams if item["id"] == id), None)` */
  function Find(cams: seq<Camera>, id: int): (r: Option<Camera>)
    ensures r.Some? <==> exists i :: 0 <= i < |cams| && cams[i].id == id
    ensures r.Some? ==> r.value.id == id
    ensures r.Some? ==> exists i :: 0 <= i < |cams| && cams[i] == r.value && forall j :: 0 <= j < i ==> cams[j].id != id
  {
    match FirstIndex(cams, id)
    case None => None
    case Some(i) => Some(cams[i])
  }

  /** The registry entry for `id`, if there is one. */
  function Lookup(id: int): Option<Camera> {
    Find(CctvList(), id)
  }

  /** Exactly the ids 1 to 5 resolve, each to its own entry of the list. */
  lemma LookupKnownIds(id: int)
    ensures Lookup(id).Some? <==> 1 <= id <= 5
    ensures Lookup(id).Some? ==> Lookup(id).value == CctvList()[id - 1]
  {
    var cams := CctvList();
    if 1 <= id <= 5 {
      assert cams[id - 1].id == id;
    }
  }
}

=== FILE: upload.dfy ===
/** The image-upload filename check used by the article forms: a name is
    accepted when the text after its last dot, lower-cased, is one of the
    allowed image extensions. */
module Upload {
  import opened Wrappers

  const AllowedExtensions: set<string> := {"png", "jpg", "jpeg", "gif"}

  /** Lower-cases an ASCII capital letter and leaves every other character
      alone. For the membership test below this agrees with Python's
      `str.lower()`: the only non-ASCII characters whose lower case contains
      an ASCII letter are U+0130 (to "i" plus a combining dot) and U+212A
      (to "k"), and neither can complete an allowed extension. */
  function LowerChar(c: char): char {
    if 'A' <= c <= 'Z' then (c as int + 32) as char else c
  }

  predicate IsUpper(c: char) {
    'A' <= c <= 'Z'
  }

  /** ASCII lower-casing of a whole string, character by character. */
  function Lower(s: string): (t: string)
    ensures |t| == |s|
    ensures forall i :: 0 <= i < |s| ==> t[i] == LowerChar(s[i])
    ensures forall i :: 0 <= i < |t| ==> !IsUpper(t[i])
  {
    seq(|s|, i requires 0 <= i < |s| => LowerChar(s[i]))
  }

  /** What lower-casing does: no capital is left, each capital becomes the
      small letter at the same place in the alphabet, and every other
      character, the dot included, is kept. */
  lemma LowerCase(s: string)
    ensures forall i :: 0 <= i < |s| ==> !IsUpper(Lower(s)[i])
    ensures forall i :: 0 <= i < |s| && !IsUpper(s[i]) ==> Lower(s)[i] == s[i]
    ensures forall i :: 0 <= i < |s| && IsUpper(s[i]) ==>
              'a' <= Lower(s)[i] <= 'z' && Lower(s)[i] as int - 'a' as int == s[i] as int - 'A' as int
  {
  }

  /** Lower-casing twice is lower-casing once. */
  lemma LowerIdempotent(s: string)
    ensures Lower(Lower(s)) == Lower(s)
  {
    var t := Lower(s);
    assert forall i :: 0 <= i < |t| ==> Lower(t)[i] == t[i];
  }

  /** Lower-casing commutes with taking a suffix. */
  lemma LowerSuffix(s: string, k: nat)
    requires k <= |s|
    ensures Lower(s)[k..] == Lower(s[k..])
  {
    assert forall i :: 0 <= i < |s| - k ==> Lower(s)[k..][i] == Lower(s[k..])[i];
  }

  /** Lower-casing moves no dot, so the last dot is found at the same place. */
  lemma LastDotOfLower(s: string)
    ensures LastIndexOf(Lower(s), '.') == LastIndexOf(s, '.')
  {
    var t := Lower(s);
    assert forall j :: 0 <= j < |s| ==> (t[j] == '.' <==> s[j] == '.');
  }

  /** The position of the last occurrence of `c` in `s`, if any. */
  function LastIndexOf(s: string, c: char): (r: Option<nat>)
    ensures r.Some? ==> r.value < |s| && s[r.value] == c
    ensures r.Some? ==> forall j :: r.value < j < |s| ==> s[j] != c
    ensures r.None? ==> forall j :: 0 <= j < |s| ==> s[j] != c
  {
    if |s| == 0 then None
    else if s[|s| - 1] == c then Some(|s| - 1)
    else LastIndexOf(s[..|s| - 1], c)
  }

  /** `filename.rsplit('.', 1)[1]` when `'.' in filename`: the text after
      the last dot. */
  function Extension(filename: string): (r: Option<string>)
    ensures r.Some? <==> '.' in filename
    ensures r.Some? ==> '.' !in r.value && |r.value| < |filename|
    ensures r.Some? ==> filename[|filename| - |r.value| - 1] == '.' && filename[|filename| - |r.value|..] == r.value
  {
    match LastIndexOf(filename, '.')
    case None => None
    case Some(i) => Some(filename[i + 1..])
  }

  /** Position `i` holds the last dot of the name, and the text after it,
      lower-cased, is an allowed extension. */
  predicate AllowedAfter(filename: string, i: int) {
    && 0 <= i < |filename| && filename[i] == '.'
    && (forall j :: i < j < |filename| ==> filename[j] != '.')
    && Lower(filename[i + 1..]) in AllowedExtensions
  }

  /** `allowed_file`: the name has a dot, and what follows its last dot is
      an allowed extension in any letter case. */
  function AllowedFile(filename: string): (ok: bool)
    ensures ok <==> exists i :: AllowedAfter(filename, i)
  {
    match LastIndexOf(filename, '.')
    case None => false
    case Some(i) =>
      assert AllowedAfter(filename, i) <==> Lower(filename[i + 1..]) in AllowedExtensions;
      Lower(filename[i + 1..]) in AllowedExtensions
  }

  /** `allowed_file` as written: there is a dot, and
      `filename.rsplit('.', 1)[1].lower()` is an allowed extension. */
  lemma AllowedFileByExtension(filename: string)
    ensures AllowedFile(filename) == (Extension(filename).Some? && Lower(Extension(filename).value) in AllowedExtensions)
  {
    match LastIndexOf(filename, '.')
    case None =>
    case Some(i) =>
      AllowedFileAtDot(filename, i);
  }

  /** Case does not matter and only the last extension counts. */
  lemma AllowedFileAccepts()
    ensures AllowedFile("a.PNG") && AllowedFile("x.tar.gif")
  {
    assert "a.PNG"[1] == '.' && "a.PNG"[2..] == "PNG" && Lower("PNG") == "png";
    assert "x.tar.gif"[5] == '.' && "x.tar.gif"[6..] == "gif" && Lower("gif") == "gif";
  }

  /** A name without a dot, one ending in a dot, and one whose last
      extension is not an image are all rejected. */
  lemma AllowedFileRejects()
    ensures !AllowedFile("png") && !AllowedFile("a.") && !AllowedFile("a.gif.txt")
  {
    assert !AllowedFile("png") by {
      assert "png"[0] != '.' && "png"[1] != '.' && "png"[2] != '.';
    }
    assert !AllowedFile("a.") by {
      assert "a."[2..] == [] && Lower([]) == [];
    }
    assert !AllowedFile("a.gif.txt") by {
      assert "a.gif.txt"[6..] == "txt" && Lower("txt")[0] == 't';
    }
  }

  /** The answer is decided by the text after the last dot. */
  lemma AllowedFileAtDot(filename: string, i: nat)
    requires LastIndexOf(filename, '.') == Some(i)
    ensures AllowedFile(filename) == (Lower(filename[i + 1..]) in AllowedExtensions)
  {
  }

  /** A suffix of a lower-cased name, lower-cased again, is the lower-cased
      suffix. */
  lemma LowerSuffixOfLower(s: string, k: nat)
    requires k <= |s|
    ensures Lower(Lower(s)[k..]) == Lower(s[k..])
  {
    LowerSuffix(s, k);
    LowerIdempotent(s[k..]);
  }

  /** The check ignores letter case: a name is accepted exactly when its
      lower-cased form is. */
  lemma AllowedFileIgnoresCase(filename: string)
    ensures AllowedFile(Lower(filename)) == AllowedFile(filename)
  {
    LastDotOfLower(filename);
    match LastIndexOf(filename, '.')
    case None =>
    case Some(i) =>
      AllowedFileAtDot(filename, i);
      AllowedFileAtDot(Lower(filename), i);
      LowerSuffixOfLower(filename, i + 1);
  }
}

=== FILE: vehicles.dfy ===
/** The vehicle classifier and the detection aggregator: raw COCO class ids
    from one detection pass are folded into the four-field count record the
    dashboard reports (`mobil`, `motor`, `bus`, `truk`). */
module Vehicles {
  import opened Wrappers

  /** The four vehicle categories, in the order the dashboard lists them. */
  datatype Category = Car | Motorcycle | Bus | Truck

  /** The COCO class ids the detector is restricted to. */
  const VehicleClasses: seq<int> := [2, 3, 5, 7]

  /** The COCO class id of each category: 2 car, 3 motorcycle, 5 bus, 7 truck. */
  function ClassId(c: Category): int {
    match c
    case Car => 2
    case Motorcycle => 3
    case Bus => 5
    case Truck => 7
  }

  /** Maps a raw class id to its category; every other id is dropped. */
  function Classify(cls: int): (r: Option<Category>)
    ensures r.Some? <==> cls in VehicleClasses
    ensures r.Some? ==> ClassId(r.value) == cls
    ensures forall c :: ClassId(c) == cls ==> r == Some(c)
  {
    if cls == 2 then Some(Car)
    else if cls == 3 then Some(Motorcycle)
    else if cls == 5 then Some(Bus)
    else if cls == 7 then Some(Truck)
    else None
  }

  /** Per-category vehicle counts, all four always present. */
  datatype Counts = Counts(mobil: nat, motor: nat, bus: nat, truk: nat) {

    function Get(c: Category): nat {
      match c
      case Car => mobil
      case Motorcycle => motor
      case Bus => bus
      case Truck => truk
    }

    /** `sum(counts.values())` */
    function Total(): nat {
      mobil + motor + bus + truk
    }
  }

  const Zero: Counts := Counts(0, 0, 0, 0)

  /** Adds one vehicle of category `c` and leaves the other counts alone. */
  function Bump(counts: Counts, c: Category): (r: Counts)
    ensures r.Get(c) == counts.Get(c) + 1
    ensures forall d :: d != c ==> r.Get(d) == counts.Get(d)
    ensures r.Total() == counts.Total() + 1
  {
    match c
    case Car => counts.(mobil := counts.mobil + 1)
    case Motorcycle => counts.(motor := counts.motor + 1)
    case Bus => counts.(bus := counts.bus + 1)
    case Truck => counts.(truk := counts.truk + 1)
  }

  /** The effect of one detected box with class id `cls`. */
  function Record(counts: Counts, cls: int): Counts {
    match Classify(cls)
    case None => counts
    case Some(c) => Bump(counts, c)
  }

  /** The counts after processing `ids` in order, starting from all zeros. */
  function Tally(ids: seq<int>): Counts {
    if |ids| == 0 then Zero else Record(Tally(ids[..|ids| - 1]), ids[|ids| - 1])
  }

  /** The ids of a detection pass in the order the counting loop visits them:
      result by result, box by box. */
  function Flatten(results: seq<seq<int>>): seq<int> {
    if |results| == 0 then [] else Flatten(results[..|results| - 1]) + results[|results| - 1]
  }

  /** The ids in `ids` that name a vehicle class, in order. */
  function VehicleIds(ids: seq<int>): (v: seq<int>)
    ensures |v| <= |ids|
  {
    if |ids| == 0 then []
    else VehicleIds(ids[..|ids| - 1]) + (if ids[|ids| - 1] in VehicleClasses then [ids[|ids| - 1]] else [])
  }

  /** Each category's count is exactly the number of occurrences of its
      class id in the pass, whatever else the pass contains. */
  lemma {:induction false} TallyCountsOccurrences(ids: seq<int>)
    ensures forall c :: Tally(ids).Get(c) == multiset(ids)[ClassId(c)]
  {
    if |ids| > 0 {
      var init, last := ids[..|ids| - 1], ids[|ids| - 1];
      TallyCountsOccurrences(init);
      assert ids == init + [last];
      assert multiset(ids) == multiset(init) + multiset{last};
    }
  }

  /** The total equals the number of ids in {2, 3, 5, 7}. */
  lemma {:induction false} TallyTotal(ids: seq<int>)
    ensures Tally(ids).Total() == |VehicleIds(ids)|
  {
    if |ids| > 0 {
      TallyTotal(ids[..|ids| - 1]);
    }
  }

  /** Stopping the count early never over-reports: each category of a
      prefix's tally is at most that of the whole pass. */
  lemma TallyPrefixBounded(ids: seq<int>, k: nat)
    requires k <= |ids|
    ensures forall c :: Tally(ids[..k]).Get(c) <= Tally(ids).Get(c)
    ensures Tally(ids[..k]).Total() <= Tally(ids).Total()
  {
    TallyCountsOccurrences(ids[..k]);
    TallyCountsOccurrences(ids);
    assert ids == ids[..k] + ids[k..];
    assert multiset(ids) == multiset(ids[..k]) + multiset(ids[k..]);
    assert forall c :: Tally(ids[..k]).Get(c) <= Tally(ids).Get(c);
    var p, w := Tally(ids[..k]), Tally(ids);
    assert p.Get(Car) <= w.Get(Car) && p.Get(Motorcycle) <= w.Get(Motorcycle);
    assert p.Get(Bus) <= w.Get(Bus) && p.Get(Truck) <= w.Get(Truck);
  }

  lemma TallySnoc(ids: seq<int>, cls: int)
    ensures Tally(ids + [cls]) == Record(Tally(ids), cls)
  {
    assert (ids + [cls])[..|ids|] == ids;
  }

  lemma FlattenSnoc(results: seq<seq<int>>, i: nat)
    requires i < |results|
    ensures Flatten(results[..i + 1]) == Flatten(results[..i]) + results[i]
  {
    assert results[..i + 1][..i] == results[..i];
  }

  /** One iteration of the counting loop: the `if`/`elif` chain on the
      class id. */
  method CountBox(counts: Counts, cls: int) returns (next: Counts)
    ensures next == Record(counts, cls)
  {
    next := counts;
    if cls == 2 {
      next := next.(mobil := next.mobil + 1);
    } else if cls == 3 {
      next := next.(motor := next.motor + 1);
    } else if cls == 5 {
      next := next.(bus := next.bus + 1);
    } else if cls == 7 {
      next := next.(truk := next.truk + 1);
    }
  }

  /** The inner loop, over the boxes of one result. */
  method CountResult(counts: Counts, boxes: seq<int>, ghost seen: seq<int>) returns (next: Counts)
    requires counts == Tally(seen)
    ensures next == Tally(seen + boxes)
  {
    next := counts;
    var j := 0;
    assert seen + boxes[..0] == seen;
    while j < |boxes|
      invariant 0 <= j <= |boxes|
      invariant next == Tally(seen + boxes[..j])
    {
      TallySnoc(seen + boxes[..j], boxes[j]);
      next := CountBox(next, boxes[j]);
      assert seen + boxes[..j] + [boxes[j]] == seen + boxes[..j + 1];
      j := j + 1;
    }
    assert boxes[..j] == boxes;
  }

  /** The counting loop of the detection routines: all four counts start at
      0, and every box of every result bumps the count of its class, if any. */
  method CountBoxes(results: seq<seq<int>>) returns (counts: Counts)
    ensures counts == Tally(Flatten(results))
    ensures forall c :: counts.Get(c) == multiset(Flatten(results))[ClassId(c)]
  {
    counts := Counts(0, 0, 0, 0);
    var i := 0;
    while i < |results|
      invariant 0 <= i <= |results|
      invariant counts == Tally(Flatten(results[..i]))
    {
      counts := CountResult(counts, results[i], Flatten(results[..i]));
      FlattenSnoc(results, i);
      i := i + 1;
    }
    assert results[..i] == results;
    TallyCountsOccurrences(Flatten(results));
  }
}

=== FILE: wrappers.dfy ===
/** The optional value used wherever the application works with `None`:
    a missing request argument, a failed parse, a camera that is not found,
    an image that could not be encoded. */
module Wrappers {

  datatype Option<+T> = None | Some(value: T) {

    /** Returns the value carried by Some, or `default` for None. */
    function GetOr(default: T): T {
      match this
      case Some(v) => v
      case None => default
    }
  }
}
